=== FILE: README.md ===
# protoc invocation, source discovery and archive staging

A model of three pieces of a Maven plugin that compiles Protocol Buffers sources:

- **`ProtocExecutorBuilder`** (module `Execute`, `executor_builder.dfy`) accumulates the
  `protoc` command line. It is a class with one growing `seq<string>` of arguments. The
  constructor seeds it with the executable path. Every other method only appends:
  include flags, output flags, two optional switches, and finally the source files,
  which `BuildCompilation` hands over to the executor. A `built` flag models the rule
  that a builder is single-use.
- **`ProtoSourceResolver`** (module `ResolveSource`, `source_resolver.dfy`) discovers
  `*.proto` sources. The file-name matcher takes the text from the last period and
  compares it with `.proto`. `Resolve` walks each existing source directory in the
  given order and appends the regular files whose names match. It is proved equal to
  a specification, `ResolvedSources`; the properties are proved about that
  specification.
- **`ProtoArchiveExtractor`** (module `Source`, `archive_extractor.dfy`) copies the
  matching entries of an archive into a staging directory named by a digest of the
  archive's file name. Each entry keeps its path relative to the archive root.
  `ExtractProtoFiles` changes a `HostFileSystem` object. It is proved equal to the
  specification `Extraction`, which says what happens to the disk even when a copy
  fails.

Shared pieces:

- `file_system.dfy` (module `FileSystem`) holds the read-only file tree. Source
  directories and archives are both trees.
  - A path is a sequence of name segments.
  - `Find` resolves a path.
  - `Walk` is the depth-first pre-order enumeration of `Files.walk`.
- `wrappers.dfy` holds `Option`, which stands in for `java.util.Optional`, and
  `Result`, which stands in for a thrown `IOException`.

The host disk written by the extractor is a map from paths to a directory or a
regular file with its bytes. `Files.createDirectories` and `Files.copy` are functions
on that map. The copy is made without a replace option, so an existing target is an
error.

Digests, archive predicate and text form of paths:

- The SHA-1 digest of file names is a function value given to the extractor's
  constructor. Nothing is assumed about it except that it is a function, so equal
  names give equal digests.
- The extractor's archive-entry predicate (`ProtoFilePredicates.isProtoFile`) is a
  parameter. It is not assumed to be the resolver's matcher.
- The builder takes paths in their text form.

Extracting again into an existing staging directory fails. `Files.copy`
(`ProtoArchiveExtractor.java`, line 80) is called without `REPLACE_EXISTING`, so the
first target that already exists throws. `RepeatedExtractionFails` proves this.

## Model

| member | source | states |
|---|---|---|
| Execute.ProtoPathFlags | src/main/java/io/github/ascopes/protobufmavenplugin/execute/ProtocExecutorBuilder.java:54-59 | one `--proto_path=` flag per directory: as many flags as directories, the i-th naming the i-th directory |
| Execute.ProtoPathFlag | src/main/java/io/github/ascopes/protobufmavenplugin/execute/ProtocExecutorBuilder.java:56 | an include flag is `--proto_path=` followed by the directory exactly as given |
| Execute.ProtoPathFlagsRoundTrip | src/main/java/io/github/ascopes/protobufmavenplugin/execute/ProtocExecutorBuilder.java:54-59 | every include flag starts with `--proto_path=` and the text after the prefix is exactly the directory it was built from, in order |
| Execute.OutputFlag | src/main/java/io/github/ascopes/protobufmavenplugin/execute/ProtocExecutorBuilder.java:69 | an output flag is `--`, then the output type unchanged, then `_out=` and the directory |
| Execute.OptionalFlag | src/main/java/io/github/ascopes/protobufmavenplugin/execute/ProtocExecutorBuilder.java:81-101 | a boolean switch contributes exactly one argument, the flag, when on and nothing when off |
| Execute.ProtocExecutorBuilder.constructor | src/main/java/io/github/ascopes/protobufmavenplugin/execute/ProtocExecutorBuilder.java:43-46 | a new builder's argument list is exactly `[executablePath]` and it is not yet built |
| Execute.ProtocExecutorBuilder.IncludeDirectories | src/main/java/io/github/ascopes/protobufmavenplugin/execute/ProtocExecutorBuilder.java:54-59 | appends one include flag per directory, in the given order, without deduplication; the earlier arguments and the executable in first position are unchanged |
| Execute.ProtocExecutorBuilder.OutputDirectory | src/main/java/io/github/ascopes/protobufmavenplugin/execute/ProtocExecutorBuilder.java:68-71 | appends exactly one argument `--<type>_out=<dir>`, whatever the type |
| Execute.ProtocExecutorBuilder.DeterministicOutput | src/main/java/io/github/ascopes/protobufmavenplugin/execute/ProtocExecutorBuilder.java:81-86 | appends `--deterministic_output` when enabled and leaves the list unchanged otherwise |
| Execute.ProtocExecutorBuilder.FatalWarnings | src/main/java/io/github/ascopes/protobufmavenplugin/execute/ProtocExecutorBuilder.java:96-101 | appends `--fatal_warnings` when enabled and leaves the list unchanged otherwise |
| Execute.ProtocExecutorBuilder.BuildCompilation | src/main/java/io/github/ascopes/protobufmavenplugin/execute/ProtocExecutorBuilder.java:111-116 | appends the source files in order as trailing arguments, hands exactly that list to the executor and marks the builder as used |
| Execute.ExampleInvocation | src/main/java/io/github/ascopes/protobufmavenplugin/execute/ProtocExecutorBuilder.java:43-116 | one include path, one generator, fatal warnings on and deterministic output off give the command line `protoc --proto_path=… --java_out=… --fatal_warnings <file>`, in that order |
| Execute.ExampleFlags | src/main/java/io/github/ascopes/protobufmavenplugin/execute/ProtocExecutorBuilder.java:54-101 | the flags of that invocation spelled out as literal strings |
| FileSystem.WalkSound | src/main/java/io/github/ascopes/protobufmavenplugin/resolve/source/ProtoSourceResolver.java:63-68 | every entry a walk yields lies under the walk's starting path and names, relative to it, the node reported |
| FileSystem.Walk | src/main/java/io/github/ascopes/protobufmavenplugin/resolve/source/ProtoSourceResolver.java:63 | a walk yields the starting path and its node first (pre-order); `WalkSound`, `WalkComplete` and `WalkPathsDistinct` say what else it yields, and that it yields each path once |
| FileSystem.Find | src/main/java/io/github/ascopes/protobufmavenplugin/resolve/source/ProtoSourceResolver.java:56 | defines what a path names in a tree; `Files.exists` holds when this is a node; `WalkSound` and `WalkComplete` relate it to the walk |
| FileSystem.WalkComplete | src/main/java/io/github/ascopes/protobufmavenplugin/resolve/source/ProtoSourceResolver.java:63-68 | every node reachable by a path from the starting point is yielded by the walk at that path |
| FileSystem.WalkPathsDistinct | src/main/java/io/github/ascopes/protobufmavenplugin/resolve/source/ProtoSourceResolver.java:63-68 | in a tree whose directories never hold two children of the same name, a walk reports no path twice |
| FileSystem.KeepMatching | src/main/java/io/github/ascopes/protobufmavenplugin/source/ProtoArchiveExtractor.java:97-98 | the stream filter keeps an entry exactly when it is in the input and the predicate accepts it, and keeps no more entries than the input has |
| FileSystem.KeepMatchingAppend | src/main/java/io/github/ascopes/protobufmavenplugin/resolve/source/ProtoSourceResolver.java:64-66 | the filter keeps order: filtering a concatenation gives the filtered parts, concatenated |
| FileSystem.KeepMatchingOne | src/main/java/io/github/ascopes/protobufmavenplugin/source/ProtoArchiveExtractor.java:98 | a single entry is kept exactly when the predicate accepts it |
| FileSystem.KeepMatchingDistinct | src/main/java/io/github/ascopes/protobufmavenplugin/resolve/source/ProtoSourceResolver.java:64-66 | filtering a list with no repeated path leaves a list with no repeated path |
| ResolveSource.LastIndexOf | src/main/java/io/github/ascopes/protobufmavenplugin/resolve/source/ProtoSourceResolver.java:79 | the index is -1 exactly when the character is absent; otherwise it holds the character and no later position does |
| ResolveSource.IsProtoFileName | src/main/java/io/github/ascopes/protobufmavenplugin/resolve/source/ProtoSourceResolver.java:76-90 | defines the matcher: a name without a period is rejected, otherwise the text from the last period must equal `.proto`; `ProtoFileNameIffSuffix` characterises it |
| ResolveSource.ProtoFileNameIffSuffix | src/main/java/io/github/ascopes/protobufmavenplugin/resolve/source/ProtoSourceResolver.java:76-90 | the matcher accepts a file name if and only if it ends with `.proto`, case-sensitively |
| ResolveSource.ProtoFileNameAccepts | src/main/java/io/github/ascopes/protobufmavenplugin/resolve/source/ProtoSourceResolver.java:79-88 | `foo.proto`, the bare `.proto` and `a.b.proto` are accepted |
| ResolveSource.ProtoFileNameRejects | src/main/java/io/github/ascopes/protobufmavenplugin/resolve/source/ProtoSourceResolver.java:79-88 | `Foo.PROTO`, `a.proto.bak`, `proto` (no period) and `foo.protobuf` are rejected |
| ResolveSource.IsProtoSource | src/main/java/io/github/ascopes/protobufmavenplugin/resolve/source/ProtoSourceResolver.java:65-66 | defines the two stream filters: a regular file whose name the matcher accepts |
| ResolveSource.ProtoSourcesInMembers | src/main/java/io/github/ascopes/protobufmavenplugin/resolve/source/ProtoSourceResolver.java:63-68 | the filtered walk holds a path exactly when some walk entry at that path is a regular file whose name the matcher accepts |
| ResolveSource.ProtoSourcesInAppend | src/main/java/io/github/ascopes/protobufmavenplugin/resolve/source/ProtoSourceResolver.java:63-68 | the filter keeps walk order: the matches of a concatenation are the matches of each part, concatenated |
| ResolveSource.ProtoSourcesInOne | src/main/java/io/github/ascopes/protobufmavenplugin/resolve/source/ProtoSourceResolver.java:65-68 | one walk entry contributes its path exactly when it is a regular file whose name the matcher accepts, and nothing otherwise |
| ResolveSource.ProtoSourcesInDistinct | src/main/java/io/github/ascopes/protobufmavenplugin/resolve/source/ProtoSourceResolver.java:63-68 | when the walk reports no path twice, neither do its matches |
| ResolveSource.ProtoSourcesIn | src/main/java/io/github/ascopes/protobufmavenplugin/resolve/source/ProtoSourceResolver.java:63-68 | the paths of a walk's entries that pass both filters, no more of them than the walk has; `ProtoSourcesInMembers`, `ProtoSourcesInAppend` and `ProtoSourcesInOne` state which and in what order |
| ResolveSource.SourcesUnder | src/main/java/io/github/ascopes/protobufmavenplugin/resolve/source/ProtoSourceResolver.java:56-68 | a missing source directory contributes nothing; an existing one contributes its walk's matches |
| ResolveSource.ResolvedSources | src/main/java/io/github/ascopes/protobufmavenplugin/resolve/source/ProtoSourceResolver.java:55-70 | defines the result as the concatenation of each directory's contribution, in the given order; `Resolve` is proved equal to it |
| ResolveSource.Resolve | src/main/java/io/github/ascopes/protobufmavenplugin/resolve/source/ProtoSourceResolver.java:52-74 | the loop returns the concatenation, in the given order, of each existing directory's walk-order matches, skipping missing directories |
| ResolveSource.AddProtoSources | src/main/java/io/github/ascopes/protobufmavenplugin/resolve/source/ProtoSourceResolver.java:63-68 | one walk's matches are appended, in walk order, after what was already collected |
| ResolveSource.ResolvedSourcesAppend | src/main/java/io/github/ascopes/protobufmavenplugin/resolve/source/ProtoSourceResolver.java:55-70 | resolving two lists of directories one after the other gives the concatenation of their results |
| ResolveSource.ResolvedSourcesStep | src/main/java/io/github/ascopes/protobufmavenplugin/resolve/source/ProtoSourceResolver.java:55-70 | one more directory appends exactly its contribution to the result so far, as one iteration of the loop does |
| ResolveSource.ResolvedSourcesOne | src/main/java/io/github/ascopes/protobufmavenplugin/resolve/source/ProtoSourceResolver.java:56-68 | one directory contributes nothing if it is missing and its filtered walk otherwise |
| ResolveSource.MissingSourceDirIsNoOp | src/main/java/io/github/ascopes/protobufmavenplugin/resolve/source/ProtoSourceResolver.java:56-59 | a missing directory anywhere in the list gives the same result as the list without it |
| ResolveSource.RepeatedSourceDirRepeatsSources | src/main/java/io/github/ascopes/protobufmavenplugin/resolve/source/ProtoSourceResolver.java:55-70 | a list of directories given twice yields its result twice: nothing is deduplicated |
| ResolveSource.ResolvedSourcesMembers | src/main/java/io/github/ascopes/protobufmavenplugin/resolve/source/ProtoSourceResolver.java:55-70 | a path is resolved exactly when one of the directories contributes it |
| ResolveSource.SourcesUnderSound | src/main/java/io/github/ascopes/protobufmavenplugin/resolve/source/ProtoSourceResolver.java:63-68 | what one directory contributes are existing regular files below it whose names the matcher accepts |
| ResolveSource.ResolvedSourcesSound | src/main/java/io/github/ascopes/protobufmavenplugin/resolve/source/ProtoSourceResolver.java:63-68 | every resolved path is an existing regular file, accepted by the matcher, below one of the directories; a directory named `x.proto` is never returned |
| ResolveSource.ResolvedSourcesComplete | src/main/java/io/github/ascopes/protobufmavenplugin/resolve/source/ProtoSourceResolver.java:63-68 | every regular file below a given directory whose name the matcher accepts is resolved |
| ResolveSource.SourcesUnderOnce | src/main/java/io/github/ascopes/protobufmavenplugin/resolve/source/ProtoSourceResolver.java:63-68 | in a well-formed tree, each regular "*.proto" file below a source directory is contributed by it exactly once |
| ResolveSource.OverlappingSourceDirsRepeatSource | src/main/java/io/github/ascopes/protobufmavenplugin/resolve/source/ProtoSourceResolver.java:55-70 | in a well-formed tree, a file under two nested source directories is returned exactly twice: results are not deduplicated |
| Source.FindProtoFilesInArchive | src/main/java/io/github/ascopes/protobufmavenplugin/source/ProtoArchiveExtractor.java:95-106 | the archive's matches are exactly the entries of the walk from the archive root that `isProtoFile` accepts |
| Source.ArchiveProtoFiles | src/main/java/io/github/ascopes/protobufmavenplugin/source/ProtoArchiveExtractor.java:95-106 | the archive's matches are exactly the entries that resolve from the archive root and pass the predicate |
| Source.ProtoArchiveExtractor.constructor | src/main/java/io/github/ascopes/protobufmavenplugin/source/ProtoArchiveExtractor.java:55-57 | the base directory is `<build directory>/protobuf-maven-plugin/extracted` |
| Source.ProtoArchiveExtractor.SameFileNameSameExtractionRoot | src/main/java/io/github/ascopes/protobufmavenplugin/source/ProtoArchiveExtractor.java:108-110 | two archives with the same file name get the same staging directory, one level below the base directory, whatever folders they sit in |
| Source.ProtoArchiveExtractor.GenerateUniqueName | src/main/java/io/github/ascopes/protobufmavenplugin/source/ProtoArchiveExtractor.java:108-110 | the staging directory's name is the digest of the archive's file name only; `SameFileNameSameExtractionRoot` draws the consequence |
| Source.ProtoArchiveExtractor.ExtractionRoot | src/main/java/io/github/ascopes/protobufmavenplugin/source/ProtoArchiveExtractor.java:69 | the staging directory lies one level below the base directory and is named by the archive's unique name |
| Source.ProtoArchiveExtractor.ChangeRelativePath | src/main/java/io/github/ascopes/protobufmavenplugin/source/ProtoArchiveExtractor.java:112-120 | the result is the new root followed by the segments of the path below the old root: relative structure is kept |
| Source.Rebased | src/main/java/io/github/ascopes/protobufmavenplugin/source/ProtoArchiveExtractor.java:112-120 | defines the path `changeRelativePath` computes: the new root followed by the segments below the old root; `ChangeRelativePath` is proved to produce it |
| Source.ProtoArchiveExtractor.ExtractProtoFiles | src/main/java/io/github/ascopes/protobufmavenplugin/source/ProtoArchiveExtractor.java:60-93 | the host disk and the result are those of the extraction of the archive's matches into `extractionBaseDir/sha1(file name)`; no match gives no listing and an untouched disk |
| Source.ProtoArchiveExtractor.CopyProtoFiles | src/main/java/io/github/ascopes/protobufmavenplugin/source/ProtoArchiveExtractor.java:74-82 | the copying loop leaves the disk and the target list the staging of the sources gives, stopping at the first failure |
| Source.StagingFailureIsFinal | src/main/java/io/github/ascopes/protobufmavenplugin/source/ProtoArchiveExtractor.java:79-80 | once one copy or directory creation fails, the later sources are not staged |
| Source.CreateDirectories | src/main/java/io/github/ascopes/protobufmavenplugin/source/ProtoArchiveExtractor.java:79 | defines `Files.createDirectories` on the disk: missing directories are created top-down, a regular file in the way fails; `CreateDirectoriesEffect` states its effect |
| Source.CopyInto | src/main/java/io/github/ascopes/protobufmavenplugin/source/ProtoArchiveExtractor.java:80 | defines `Files.copy` without a replace option: an existing target fails, otherwise the entry's content is written there |
| Source.StageOne | src/main/java/io/github/ascopes/protobufmavenplugin/source/ProtoArchiveExtractor.java:75-81 | defines one loop iteration: rebase the entry, create the parents, copy, record the target; `StageOneEffect`, `StageOneNeverOverwrites` and `StageOneAdds` state its effect |
| Source.StageSources | src/main/java/io/github/ascopes/protobufmavenplugin/source/ProtoArchiveExtractor.java:74-82 | defines the copying loop, stopping at the first failure and keeping what was done; `StagedTargets`, `StagingNeverOverwrites`, `StagingKeepsEarlierCopies` and `StagingAdds` state its effect |
| Source.Extraction | src/main/java/io/github/ascopes/protobufmavenplugin/source/ProtoArchiveExtractor.java:60-93 | defines `extractProtoFiles` once the matches are known: no listing when nothing matches, otherwise the staging directory is created and the loop runs; `ExtractionListing`, `ExtractionNeverOverwrites`, `ExtractionAdds` and `RepeatedExtractionFails` state its effect |
| Source.CreateDirectoriesEffect | src/main/java/io/github/ascopes/protobufmavenplugin/source/ProtoArchiveExtractor.java:79 | creating directories keeps everything already present, leaves the directory in place, and adds only directories on the way to it |
| Source.StageOneEffect | src/main/java/io/github/ascopes/protobufmavenplugin/source/ProtoArchiveExtractor.java:75-81 | a successful step records the target `root + entry path`, which did not exist before and now holds the entry's content |
| Source.StageOneNeverOverwrites | src/main/java/io/github/ascopes/protobufmavenplugin/source/ProtoArchiveExtractor.java:79-80 | a staging step, failed or not, never removes or replaces anything on the disk |
| Source.StageOneAdds | src/main/java/io/github/ascopes/protobufmavenplugin/source/ProtoArchiveExtractor.java:75-81 | a staging step, failed or not, adds only paths on the way to its target, the extraction root followed by the entry's path |
| Source.StagingNeverOverwrites | src/main/java/io/github/ascopes/protobufmavenplugin/source/ProtoArchiveExtractor.java:74-82 | the staging loop, failed or not, never removes or replaces anything on the disk |
| Source.StagingAdds | src/main/java/io/github/ascopes/protobufmavenplugin/source/ProtoArchiveExtractor.java:74-82 | the staging loop, failed or not, adds only paths on the way to the target of one of its sources |
| Source.StagingKeepsEarlierCopies | src/main/java/io/github/ascopes/protobufmavenplugin/source/ProtoArchiveExtractor.java:74-82 | no rollback: what the first steps copied is still there when the loop ends, even after a later failure |
| Source.StagedTargets | src/main/java/io/github/ascopes/protobufmavenplugin/source/ProtoArchiveExtractor.java:72-82 | a successful staging lists one target per source in order, the i-th being the staging root followed by the i-th entry's path; each was new and holds its entry's content |
| Source.ExtractionListing | src/main/java/io/github/ascopes/protobufmavenplugin/source/ProtoArchiveExtractor.java:69-91 | a listing names the archive and the staging directory, and lists, in walk order, one new file strictly below the staging directory per matched entry, holding the entry's content |
| Source.ExtractionNeverOverwrites | src/main/java/io/github/ascopes/protobufmavenplugin/source/ProtoArchiveExtractor.java:60-93 | an extraction, failed or not, never removes or replaces anything already on the disk |
| Source.ExtractionAdds | src/main/java/io/github/ascopes/protobufmavenplugin/source/ProtoArchiveExtractor.java:60-93 | an extraction, failed or not, adds only the staging directory, the directories on the way to it, and paths on the way to the targets below it: nothing outside the staging directory's line of descent |
| Source.RepeatedExtractionFails | src/main/java/io/github/ascopes/protobufmavenplugin/source/ProtoArchiveExtractor.java:69-80 | extracting the same entries into the same staging directory again, for the same archive or another with the same file name, fails because the first copies are in the way |

## Left out

- Real file-system I/O, permissions, symbolic links and walk errors are not modelled. Directories and archives are given trees, and the staging disk is a map. An `IOException` raised in the middle of a walk is not modelled.
- Discovery of the jar `FileSystemProvider` and mounting of the archive as a virtual file system are not modelled. The archive is the tree handed to `ExtractProtoFiles`, with its root at the empty path.
- `Digests.sha1` is not part of this model. It is the `sha1` function value, and no collision-freeness is assumed.
- `ProtoFilePredicates.isProtoFile` is not part of this model. It is the `isProtoFile` parameter.
- `ProtocExecutor` and running the `protoc` process are not modelled. The executor is the argument list it receives. The Java executor shares the builder's list object; the model gives it a copy. Because the builder is unusable once built, no later change could be observed through that sharing.
- Path rendering (`Path.toString`, and `Path.resolve` on text) is not modelled. The builder receives paths already rendered as strings, and the extractor's paths are segment sequences.
- Logging, dependency injection, `MavenProject`, the Immutables builder, unmodifiable-list wrappers and try-with-resources closing are not modelled. They carry no state of interest. The listing is a datatype record and `Optional` is `Option`.
- Concurrent creation of the same staging directory by two builds is not modelled. Directory creation is one atomic step on the map.
- CreateDirectories: a regular file standing on the way to the directory is reported as `FileAlreadyExists` of that file. The JDK reports a file-system error on the first child below it. Only the fact that the extraction fails is modelled, not which exception class is thrown.
- Source.ProtoArchiveExtractor.ChangeRelativePath: requires the path to lie under the old root. `Path.relativize` of a path outside the root (producing `..` segments) never happens in the extractor, where the old root is the archive root.

=== FILE: archive_extractor.dfy ===
/**
 * `ProtoArchiveExtractor`: copies the proto sources found in an archive into a
 * staging directory on the host file system, keeping each entry's path relative
 * to the archive root. The archive is a read-only file tree whose root is the
 * path `[]`; the host file system is a map from paths to what they hold, which
 * the extractor changes by creating directories and copying files.
 */
module Source {
  import opened Wrappers
  import opened FileSystem

  /** What one extraction produced: the archive, the staging directory and the copied files. */
  datatype ProtoFileListing = ProtoFileListing(originalRoot: Path, protoFilesRoot: Path, protoFiles: seq<Path>)

  /** What the host file system holds at a path. */
  datatype DiskEntry = Directory | RegularFile(content: seq<byte>)

  type Disk = map<Path, DiskEntry>

  /** The I/O failures the extraction can raise: a path in the way of a directory or a copy. */
  datatype IoError = FileAlreadyExists(path: Path)

  /** The state of the disk after an operation, and its outcome; a failure keeps earlier changes. */
  datatype Outcome<T> = Outcome(disk: Disk, result: Result<T, IoError>)

  /** The host file system the staging directories are written to. */
  class HostFileSystem {
    var disk: Disk

    constructor (disk: Disk)
      ensures this.disk == disk
    {
      this.disk := disk;
    }
  }

  /** Nothing present in `before` is removed or changed in `after`. */
  ghost predicate Extends(before: Disk, after: Disk)
  {
    forall p :: p in before ==> p in after && after[p] == before[p]
  }

  /** `p` is `dir` or a directory on the way to it: a prefix of `dir`. */
  ghost predicate OnTheWay(p: Path, dir: Path)
  {
    |p| <= |dir| && dir[..|p|] == p
  }

  /**
   * `Files.createDirectories`: every missing directory on the way to `dir` is created,
   * from the top down; a path on the way that holds a regular file stops it.
   */
  function CreateDirectories(disk: Disk, dir: Path): Result<Disk, IoError>
    decreases |dir|
  {
    if dir == [] then Success(disk)
    else if dir in disk then
      if disk[dir].Directory? then Success(disk) else Failure(FileAlreadyExists(dir))
    else
      match CreateDirectories(disk, Parent(dir))
      case Failure(e) => Failure(e)
      case Success(withParent) => Success(withParent[dir := Directory])
  }

  /** What a copy writes for an archive entry: the file's bytes, or an empty directory. */
  function CopiedEntry(n: Node): DiskEntry
  {
    match n
    case File(content) => RegularFile(content)
    case Dir(_) => Directory
  }

  /** `Files.copy` without `REPLACE_EXISTING`: a target that already exists is an error. */
  function CopyInto(disk: Disk, source: Node, target: Path): Result<Disk, IoError>
  {
    if target in disk then Failure(FileAlreadyExists(target))
    else Success(disk[target := CopiedEntry(source)])
  }

  /** The path that has, below `newRoot`, the place `existingPath` has below `existingRoot`. */
  function Rebased(newRoot: Path, existingRoot: Path, existingPath: Path): Path
    requires |existingRoot| <= |existingPath| && existingPath[..|existingRoot|] == existingRoot
  {
    newRoot + existingPath[|existingRoot|..]
  }

  /** `findProtoFilesInArchive`: the walk of the whole archive, filtered by `isProtoFile`. */
  function FindProtoFilesInArchive(archiveRoot: Node, isProtoFile: Entry -> bool): (found: seq<Entry>)
    ensures forall e :: e in found <==> e in Walk(archiveRoot, []) && isProtoFile(e)
  {
    KeepMatching(Walk(archiveRoot, []), isProtoFile)
  }

  /** One iteration of the staging loop: create the target's parents, copy, record the target. */
  function StageOne(disk: Disk, extractionRoot: Path, source: Entry, targets: seq<Path>): Outcome<seq<Path>>
  {
    var target := Rebased(extractionRoot, [], source.path);
    match CreateDirectories(disk, Parent(target))
    case Failure(e) => Outcome(disk, Failure(e))
    case Success(withParents) =>
      match CopyInto(withParents, source.node, target)
      case Failure(e) => Outcome(withParents, Failure(e))
      case Success(copied) => Outcome(copied, Success(targets + [target]))
  }

  /** The staging loop over `sources`; the first failure ends it and keeps what was copied. */
  function StageSources(disk: Disk, extractionRoot: Path, sources: seq<Entry>): Outcome<seq<Path>>
    decreases |sources|
  {
    if sources == [] then Outcome(disk, Success([]))
    else
      var staged := StageSources(disk, extractionRoot, sources[..|sources| - 1]);
      if staged.result.Failure? then staged
      else StageOne(staged.disk, extractionRoot, sources[|sources| - 1], staged.result.value)
  }

  /**
   * `extractProtoFiles` once the archive's matching entries are known: no listing when
   * nothing matches, otherwise the staging directory is created and every entry copied.
   */
  function Extraction(disk: Disk, zipPath: Path, extractionRoot: Path, sourceFiles: seq<Entry>): Outcome<Option<ProtoFileListing>>
  {
    if sourceFiles == [] then Outcome(disk, Success(None))
    else match CreateDirectories(disk, extractionRoot)
      case Failure(e) => Outcome(disk, Failure(e))
      case Success(withRoot) =>
        var staged := StageSources(withRoot, extractionRoot, sourceFiles);
        match staged.result
        case Failure(e) => Outcome(staged.disk, Failure(e))
        case Success(targets) =>
          Outcome(staged.disk, Success(Some(ProtoFileListing(zipPath, extractionRoot, targets))))
  }

  class ProtoArchiveExtractor {
    /** `<build directory>/protobuf-maven-plugin/extracted`. */
    const extractionBaseDir: Path
    /** The digest that names staging directories (`Digests.sha1`). */
    const sha1: string -> string

    constructor (buildDirectory: Path, sha1: string -> string)
      ensures extractionBaseDir == buildDirectory + ["protobuf-maven-plugin", "extracted"]
      ensures this.sha1 == sha1
    {
      extractionBaseDir := buildDirectory + ["protobuf-maven-plugin", "extracted"];
      this.sha1 := sha1;
    }

    /** The staging directory's name: the digest of the archive's file name alone. */
    function GenerateUniqueName(archive: Path): string
    {
      sha1(FileName(archive))
    }

    /** The staging directory of an archive, one level below the base directory. */
    function ExtractionRoot(zipPath: Path): (root: Path)
      ensures |root| == |extractionBaseDir| + 1 && root[..|extractionBaseDir|] == extractionBaseDir
      ensures FileName(root) == GenerateUniqueName(zipPath)
    {
      extractionBaseDir + [GenerateUniqueName(zipPath)]
    }

    /** Two archives with the same file name share a staging directory, whatever their folders. */
    lemma SameFileNameSameExtractionRoot(zipPath: Path, otherZipPath: Path)
      requires FileName(zipPath) == FileName(otherZipPath)
      ensures ExtractionRoot(zipPath) == ExtractionRoot(otherZipPath)
      ensures |ExtractionRoot(zipPath)| == |extractionBaseDir| + 1
      ensures ExtractionRoot(zipPath)[..|extractionBaseDir|] == extractionBaseDir
    {
    }

    /** `changeRelativePath`: descends from `newRoot` one segment at a time along the relative path. */
    method ChangeRelativePath(newRoot: Path, existingRoot: Path, existingPath: Path) returns (path: Path)
      requires |existingRoot| <= |existingPath| && existingPath[..|existingRoot|] == existingRoot
      ensures |path| == |newRoot| + |existingPath| - |existingRoot|
      ensures path[..|newRoot|] == newRoot
      ensures path[|newRoot|..] == existingPath[|existingRoot|..]
    {
      var relative := existingPath[|existingRoot|..];
      path := newRoot;
      for i := 0 to |relative|
        invariant path == newRoot + relative[..i]
      {
        assert relative[..i + 1] == relative[..i] + [relative[i]];
        path := path + [relative[i]];
      }
      assert relative[..|relative|] == relative;
    }

    /** `extractProtoFiles`, with the archive already mounted as `archive`. */
    method ExtractProtoFiles(zipPath: Path, archive: Node, isProtoFile: Entry -> bool, host: HostFileSystem)
      returns (r: Result<Option<ProtoFileListing>, IoError>)
      modifies host
      ensures Outcome(host.disk, r) ==
        Extraction(old(host.disk), zipPath, ExtractionRoot(zipPath), FindProtoFilesInArchive(archive, isProtoFile))
      ensures FindProtoFilesInArchive(archive, isProtoFile) == [] ==> r == Success(None) && host.disk == old(host.disk)
    {
      var sourceFiles := FindProtoFilesInArchive(archive, isProtoFile);
      if |sourceFiles| == 0 {
        return Success(None);
      }
      var extractionRoot := extractionBaseDir + [GenerateUniqueName(zipPath)];
      var created := CreateDirectories(host.disk, extractionRoot);
      if created.Failure? {
        return Failure(created.error);
      }
      host.disk := created.value;
      var staged := CopyProtoFiles(extractionRoot, sourceFiles, host);
      if staged.Failure? {
        return Failure(staged.error);
      }
      r := Success(Some(ProtoFileListing(zipPath, extractionRoot, staged.value)));
    }

    /** The copying loop of `extractProtoFiles`: each source's parents are created, then it is copied. */
    method CopyProtoFiles(extractionRoot: Path, sourceFiles: seq<Entry>, host: HostFileSystem)
      returns (r: Result<seq<Path>, IoError>)
      modifies host
      ensures Outcome(host.disk, r) == StageSources(old(host.disk), extractionRoot, sourceFiles)
    {
      var targetFiles: seq<Path> := [];
      for i := 0 to |sourceFiles|
        invariant StageSources(old(host.disk), extractionRoot, sourceFiles[..i]) == Outcome(host.disk, Success(targetFiles))
      {
        var sourceFile := sourceFiles[i];
        assert sourceFiles[..i + 1][..i] == sourceFiles[..i];
        var targetFile := ChangeRelativePath(extractionRoot, [], sourceFile.path);
        assert targetFile == Rebased(extractionRoot, [], sourceFile.path);
        var withParents := CreateDirectories(host.disk, Parent(targetFile));
        if withParents.Failure? {
          StagingFailureIsFinal(old(host.disk), extractionRoot, sourceFiles, i + 1);
          return Failure(withParents.error);
        }
        host.disk := withParents.value;
        var copied := CopyInto(host.disk, sourceFile.node, targetFile);
        if copied.Failure? {
          StagingFailureIsFinal(old(host.disk), extractionRoot, sourceFiles, i + 1);
          return Failure(copied.error);
        }
        host.disk := copied.value;
        targetFiles := targetFiles + [targetFile];
      }
      assert sourceFiles[..|sourceFiles|] == sourceFiles;
      r := Success(targetFiles);
    }
  }

  /** Once a staging step fails, the later sources are not looked at. */
  lemma {:induction false} StagingFailureIsFinal(disk: Disk, extractionRoot: Path, sources: seq<Entry>, k: nat)
    requires k <= |sources|
    requires StageSources(disk, extractionRoot, sources[..k]).result.Failure?
    ensures StageSources(disk, extractionRoot, sources) == StageSources(disk, extractionRoot, sources[..k])
    decreases |sources|
  {
    if k < |sources| {
      var init := sources[..|sources| - 1];
      assert init[..k] == sources[..k];
      StagingFailureIsFinal(disk, extractionRoot, init, k);
    } else {
      assert sources[..k] == sources;
    }
  }

  /**
   * The entries found in a well-formed archive are exactly the paths that resolve from
   * its root and that `isProtoFile` accepts.
   */
  lemma ArchiveProtoFiles(archiveRoot: Node, isProtoFile: Entry -> bool, e: Entry)
    requires WellFormed(archiveRoot)
    ensures e in FindProtoFilesInArchive(archiveRoot, isProtoFile) <==>
      Find(archiveRoot, e.path) == Some(e.node) && isProtoFile(e)
  {
    if e in Walk(archiveRoot, []) {
      WalkSound(archiveRoot, [], e);
      assert e.path[0..] == e.path;
    }
    if Find(archiveRoot, e.path) == Some(e.node) {
      WalkComplete(archiveRoot, [], e.path, e.node);
      assert [] + e.path == e.path;
    }
  }

  /**
   * `CreateDirectories` keeps everything already there, leaves `dir` a directory, and
   * adds nothing but directories on the way to `dir`.
   */
  lemma {:induction false} CreateDirectoriesEffect(disk: Disk, dir: Path)
    requires CreateDirectories(disk, dir).Success?
    ensures var created := CreateDirectories(disk, dir).value;
      && Extends(disk, created)
      && (dir != [] ==> dir in created && created[dir] == Directory)
      && forall p :: p in created && p !in disk ==>
           created[p] == Directory && 0 < |p| <= |dir| && dir[..|p|] == p
    decreases |dir|
  {
    if dir != [] && dir !in disk {
      CreateDirectoriesEffect(disk, Parent(dir));
    }
  }

  /** A successful staging step copies its entry to a target that did not exist before. */
  lemma StageOneEffect(disk: Disk, extractionRoot: Path, source: Entry, targets: seq<Path>)
    requires StageOne(disk, extractionRoot, source, targets).result.Success?
    ensures var staged := StageOne(disk, extractionRoot, source, targets);
      var target := extractionRoot + source.path;
      && staged.result.value == targets + [target]
      && target !in disk
      && Extends(disk, staged.disk)
      && staged.disk[target] == CopiedEntry(source.node)
  {
    var target := Rebased(extractionRoot, [], source.path);
    assert source.path[0..] == source.path;
    CreateDirectoriesEffect(disk, Parent(target));
  }

  /** A staging step, successful or not, never removes or overwrites anything on the disk. */
  lemma StageOneNeverOverwrites(disk: Disk, extractionRoot: Path, source: Entry, targets: seq<Path>)
    ensures Extends(disk, StageOne(disk, extractionRoot, source, targets).disk)
  {
    var target := Rebased(extractionRoot, [], source.path);
    if CreateDirectories(disk, Parent(target)).Success? {
      CreateDirectoriesEffect(disk, Parent(target));
    }
  }

  /** Staging, successful or not, never removes or overwrites anything on the disk. */
  lemma {:induction false} StagingNeverOverwrites(disk: Disk, extractionRoot: Path, sources: seq<Entry>)
    ensures Extends(disk, StageSources(disk, extractionRoot, sources).disk)
    decreases |sources|
  {
    if sources != [] {
      var init := sources[..|sources| - 1];
      StagingNeverOverwrites(disk, extractionRoot, init);
      var staged := StageSources(disk, extractionRoot, init);
      if staged.result.Success? {
        StageOneNeverOverwrites(staged.disk, extractionRoot, sources[|sources| - 1], staged.result.value);
      }
    }
  }

  /**
   * A staging step adds nothing but its target and the directories on the way to it:
   * every new path is a prefix of the extraction root followed by the entry's path.
   */
  lemma StageOneAdds(disk: Disk, extractionRoot: Path, source: Entry, targets: seq<Path>)
    ensures var after := StageOne(disk, extractionRoot, source, targets).disk;
      forall p :: p in after && p !in disk ==> OnTheWay(p, extractionRoot + source.path)
  {
    var target := Rebased(extractionRoot, [], source.path);
    assert source.path[0..] == source.path;
    if CreateDirectories(disk, Parent(target)).Success? {
      CreateDirectoriesEffect(disk, Parent(target));
      var withParents := CreateDirectories(disk, Parent(target)).value;
      forall p | p in withParents && p !in disk
        ensures OnTheWay(p, target)
      {
        if target != [] {
          assert Parent(target) == target[..|target| - 1];
        }
      }
    }
  }

  /**
   * Staging, successful or not, adds nothing but paths on the way to the target of
   * one of its sources.
   */
  lemma {:induction false} StagingAdds(disk: Disk, extractionRoot: Path, sources: seq<Entry>)
    ensures var after := StageSources(disk, extractionRoot, sources).disk;
      forall p :: p in after && p !in disk ==>
        exists i :: 0 <= i < |sources| && OnTheWay(p, extractionRoot + sources[i].path)
    decreases |sources|
  {
    if sources != [] {
      var init := sources[..|sources| - 1];
      var last := sources[|sources| - 1];
      StagingAdds(disk, extractionRoot, init);
      var staged := StageSources(disk, extractionRoot, init);
      if staged.result.Success? {
        StageOneAdds(staged.disk, extractionRoot, last, staged.result.value);
      }
      var after := StageSources(disk, extractionRoot, sources).disk;
      forall p | p in after && p !in disk
        ensures exists i :: 0 <= i < |sources| && OnTheWay(p, extractionRoot + sources[i].path)
      {
        if p in staged.disk {
          var i :| 0 <= i < |init| && OnTheWay(p, extractionRoot + init[i].path);
          assert init[i] == sources[i];
        } else {
          assert OnTheWay(p, extractionRoot + sources[|sources| - 1].path);
        }
      }
    }
  }

  /**
   * No rollback: whatever the first `k` staging steps wrote is still on the disk when
   * staging ends, even if a later step fails.
   */
  lemma {:induction false} StagingKeepsEarlierCopies(disk: Disk, extractionRoot: Path, sources: seq<Entry>, k: nat)
    requires k <= |sources|
    ensures Extends(StageSources(disk, extractionRoot, sources[..k]).disk, StageSources(disk, extractionRoot, sources).disk)
    decreases |sources|
  {
    if k == |sources| {
      assert sources[..k] == sources;
    } else {
      var init := sources[..|sources| - 1];
      assert init[..k] == sources[..k];
      StagingKeepsEarlierCopies(disk, extractionRoot, init, k);
      var staged := StageSources(disk, extractionRoot, init);
      if staged.result.Success? {
        StageOneNeverOverwrites(staged.disk, extractionRoot, sources[|sources| - 1], staged.result.value);
      }
    }
  }

  /**
   * A successful staging copies the i-th source to the extraction root followed by the
   * source's path inside the archive; no target existed before, and each holds what
   * its source holds.
   */
  lemma {:induction false} StagedTargets(disk: Disk, extractionRoot: Path, sources: seq<Entry>)
    requires StageSources(disk, extractionRoot, sources).result.Success?
    ensures var staged := StageSources(disk, extractionRoot, sources);
      var targets := staged.result.value;
      && |targets| == |sources|
      && forall i :: 0 <= i < |sources| ==>
           && targets[i] == extractionRoot + sources[i].path
           && targets[i] !in disk
           && targets[i] in staged.disk
           && staged.disk[targets[i]] == CopiedEntry(sources[i].node)
    decreases |sources|
  {
    if sources != [] {
      var init := sources[..|sources| - 1];
      var source := sources[|sources| - 1];
      var before := StageSources(disk, extractionRoot, init);
      StagedTargets(disk, extractionRoot, init);
      StagingNeverOverwrites(disk, extractionRoot, init);
      StageOneEffect(before.disk, extractionRoot, source, before.result.value);
      var staged := StageSources(disk, extractionRoot, sources);
      forall i | 0 <= i < |init|
        ensures staged.disk[before.result.value[i]] == CopiedEntry(sources[i].node)
      {
        assert init[i] == sources[i];
        assert before.result.value[i] in before.disk;
      }
    }
  }

  /**
   * An extraction that produces a listing names the archive and the staging directory,
   * and lists one new file per matching entry, in order, strictly below the staging
   * directory at the entry's path within the archive, holding the entry's content.
   */
  lemma ExtractionListing(disk: Disk, zipPath: Path, extractionRoot: Path, sourceFiles: seq<Entry>)
    requires extractionRoot != []
    requires var r := Extraction(disk, zipPath, extractionRoot, sourceFiles).result; r.Success? && r.value.Some?
    ensures var extraction := Extraction(disk, zipPath, extractionRoot, sourceFiles);
      var listing := extraction.result.value.value;
      && listing.originalRoot == zipPath
      && listing.protoFilesRoot == extractionRoot
      && |listing.protoFiles| == |sourceFiles| > 0
      && forall i :: 0 <= i < |sourceFiles| ==>
           && listing.protoFiles[i] == extractionRoot + sourceFiles[i].path
           && sourceFiles[i].path != []
           && listing.protoFiles[i] !in disk
           && listing.protoFiles[i] in extraction.disk
           && extraction.disk[listing.protoFiles[i]] == CopiedEntry(sourceFiles[i].node)
  {
    var withRoot := CreateDirectories(disk, extractionRoot).value;
    CreateDirectoriesEffect(disk, extractionRoot);
    StagedTargets(withRoot, extractionRoot, sourceFiles);
    forall i | 0 <= i < |sourceFiles|
      ensures sourceFiles[i].path != []
    {
      assert extractionRoot in withRoot;
      assert extractionRoot + sourceFiles[i].path != extractionRoot;
    }
  }

  /** An extraction, successful or not, never removes or overwrites anything already on the disk. */
  lemma ExtractionNeverOverwrites(disk: Disk, zipPath: Path, extractionRoot: Path, sourceFiles: seq<Entry>)
    ensures Extends(disk, Extraction(disk, zipPath, extractionRoot, sourceFiles).disk)
  {
    if sourceFiles != [] && CreateDirectories(disk, extractionRoot).Success? {
      var withRoot := CreateDirectories(disk, extractionRoot).value;
      CreateDirectoriesEffect(disk, extractionRoot);
      StagingNeverOverwrites(withRoot, extractionRoot, sourceFiles);
    }
  }

  /**
   * An extraction, successful or not, writes only inside its staging directory: every
   * new path is the staging directory, a directory on the way to it, or a path on the
   * way to the target of one of the matching entries.
   */
  lemma ExtractionAdds(disk: Disk, zipPath: Path, extractionRoot: Path, sourceFiles: seq<Entry>)
    ensures var after := Extraction(disk, zipPath, extractionRoot, sourceFiles).disk;
      forall p :: p in after && p !in disk ==>
        || OnTheWay(p, extractionRoot)
        || exists i :: 0 <= i < |sourceFiles| && OnTheWay(p, extractionRoot + sourceFiles[i].path)
  {
    if sourceFiles != [] && CreateDirectories(disk, extractionRoot).Success? {
      var withRoot := CreateDirectories(disk, extractionRoot).value;
      CreateDirectoriesEffect(disk, extractionRoot);
      StagingAdds(withRoot, extractionRoot, sourceFiles);
    }
  }

  /**
   * Staging is not repeatable: extracting the same entries into the same staging
   * directory a second time, as happens for the same archive or another archive with
   * the same file name, fails because the first copy is already there.
   */
  lemma RepeatedExtractionFails(disk: Disk, zipPath: Path, otherZipPath: Path, extractionRoot: Path, sourceFiles: seq<Entry>)
    requires extractionRoot != []
    requires var r := Extraction(disk, zipPath, extractionRoot, sourceFiles).result; r.Success? && r.value.Some?
    ensures var first := Extraction(disk, zipPath, extractionRoot, sourceFiles);
      Extraction(first.disk, otherZipPath, extractionRoot, sourceFiles).result.Failure?
  {
    var first := Extraction(disk, zipPath, extractionRoot, sourceFiles);
    ExtractionListing(disk, zipPath, extractionRoot, sourceFiles);
    var copied := extractionRoot + sourceFiles[0].path;
    assert copied in first.disk;
    match CreateDirectories(first.disk, extractionRoot)
    case Failure(_) =>
    case Success(withRoot) =>
      CreateDirectoriesEffect(first.disk, extractionRoot);
      assert copied in withRoot;
      if StageSources(withRoot, extractionRoot, sourceFiles).result.Success? {
        StagedTargets(withRoot, extractionRoot, sourceFiles);
        assert false;
      }
  }
}

=== FILE: executor_builder.dfy ===
/**
 * `ProtocExecutorBuilder`: accumulates the `protoc` command line. The builder owns
 * one growing list of arguments; every operation appends to it, and
 * `BuildCompilation` hands the finished list to the executor. Paths are passed in
 * the text form `Path.toString` gives them.
 */
module Execute {

  /** The executor is handed exactly the argument list the builder accumulated. */
  datatype ProtocExecutor = ProtocExecutor(arguments: seq<string>)

  /** The include flag for one import directory: the prefix, then the directory as given. */
  function ProtoPathFlag(directory: string): (flag: string)
    ensures |flag| == |"--proto_path="| + |directory|
    ensures flag[..|"--proto_path="|] == "--proto_path=" && flag[|"--proto_path="|..] == directory
  {
    "--proto_path=" + directory
  }

  /** The include flags for a list of directories, one each, in the given order. */
  function ProtoPathFlags(directories: seq<string>): (flags: seq<string>)
    ensures |flags| == |directories|
    ensures forall i :: 0 <= i < |directories| ==> flags[i] == ProtoPathFlag(directories[i])
  {
    if directories == [] then []
    else ProtoPathFlags(directories[..|directories| - 1]) + [ProtoPathFlag(directories[|directories| - 1])]
  }

  /** The output flag for one code generator; the generator name is not checked. */
  function OutputFlag(outputType: string, outputDirectory: string): (flag: string)
    ensures |flag| == 2 + |outputType| + 5 + |outputDirectory|
    ensures flag[..2] == "--" && flag[2..2 + |outputType|] == outputType
    ensures flag[2 + |outputType|..] == "_out=" + outputDirectory
  {
    "--" + outputType + "_out=" + outputDirectory
  }

  /** A boolean switch appears once when enabled and not at all otherwise. */
  function OptionalFlag(flag: string, enabled: bool): (flags: seq<string>)
    ensures |flags| == (if enabled then 1 else 0)
    ensures flag in flags <==> enabled
  {
    if enabled then [flag] else []
  }

  /** The directory an include flag carries after its prefix. */
  function IncludedDirectory(argument: string): (directory: string)
    requires |argument| >= |"--proto_path="| && argument[..|"--proto_path="|] == "--proto_path="
  {
    argument[|"--proto_path="|..]
  }

  /** The include flags give back exactly the directories they were built from, in order. */
  lemma ProtoPathFlagsRoundTrip(directories: seq<string>)
    ensures forall i :: 0 <= i < |directories| ==>
      var flag := ProtoPathFlags(directories)[i];
      |flag| >= |"--proto_path="| && flag[..|"--proto_path="|] == "--proto_path=" &&
      IncludedDirectory(flag) == directories[i]
  {
    forall i | 0 <= i < |directories|
      ensures var flag := ProtoPathFlags(directories)[i];
        |flag| >= |"--proto_path="| && flag[..|"--proto_path="|] == "--proto_path=" &&
        IncludedDirectory(flag) == directories[i]
    {
      var flag := ProtoPathFlags(directories)[i];
      assert flag == "--proto_path=" + directories[i];
    }
  }

  class ProtocExecutorBuilder {
    /** The executable, always the first argument. */
    const executablePath: string
    var arguments: seq<string>
    /** Set once the builder has produced its executor; the builder is single-use. */
    var built: bool

    ghost predicate Valid()
      reads this
    {
      |arguments| >= 1 && arguments[0] == executablePath
    }

    constructor (executablePath: string)
      ensures Valid() && !built
      ensures this.executablePath == executablePath
      ensures arguments == [executablePath]
    {
      this.executablePath := executablePath;
      arguments := [executablePath];
      built := false;
    }

    /** Adds one `--proto_path=` flag per directory, in order, without deduplication. */
    method IncludeDirectories(directories: seq<string>)
      requires Valid() && !built
      modifies this
      ensures Valid() && !built
      ensures arguments == old(arguments) + ProtoPathFlags(directories)
    {
      ghost var before := arguments;
      for i := 0 to |directories|
        invariant built == old(built)
        invariant arguments == before + ProtoPathFlags(directories[..i])
      {
        assert directories[..i + 1][..i] == directories[..i];
        arguments := arguments + [ProtoPathFlag(directories[i])];
      }
      assert directories[..|directories|] == directories;
    }

    /** Adds `--<outputType>_out=<outputDirectory>`. */
    method OutputDirectory(outputType: string, outputDirectory: string)
      requires Valid() && !built
      modifies this
      ensures Valid() && !built
      ensures arguments == old(arguments) + [OutputFlag(outputType, outputDirectory)]
    {
      arguments := arguments + [OutputFlag(outputType, outputDirectory)];
    }

    /** Adds `--deterministic_output` when enabled; meant to be called at most once. */
    method DeterministicOutput(deterministicOutput: bool)
      requires Valid() && !built
      modifies this
      ensures Valid() && !built
      ensures arguments == old(arguments) + OptionalFlag("--deterministic_output", deterministicOutput)
    {
      if deterministicOutput {
        arguments := arguments + ["--deterministic_output"];
      }
    }

    /** Adds `--fatal_warnings` when enabled; meant to be called at most once. */
    method FatalWarnings(fatalWarnings: bool)
      requires Valid() && !built
      modifies this
      ensures Valid() && !built
      ensures arguments == old(arguments) + OptionalFlag("--fatal_warnings", fatalWarnings)
    {
      if fatalWarnings {
        arguments := arguments + ["--fatal_warnings"];
      }
    }

    /** Appends the source files as trailing arguments and hands the list to the executor. */
    method BuildCompilation(protoFiles: seq<string>) returns (executor: ProtocExecutor)
      requires Valid() && !built
      modifies this
      ensures Valid() && built
      ensures arguments == old(arguments) + protoFiles
      ensures executor.arguments == arguments
    {
      for i := 0 to |protoFiles|
        invariant Valid()
        invariant arguments == old(arguments) + protoFiles[..i]
      {
        assert protoFiles[..i + 1] == protoFiles[..i] + [protoFiles[i]];
        arguments := arguments + [protoFiles[i]];
      }
      assert protoFiles[..|protoFiles|] == protoFiles;
      built := true;
      executor := ProtocExecutor(arguments);
    }
  }

  /**
   * A complete invocation: the executable, one include path, one generator, fatal
   * warnings on, deterministic output off, one source file.
   */
  method ExampleInvocation() returns (executor: ProtocExecutor)
    ensures executor.arguments ==
      ["/usr/bin/protoc", "--proto_path=/src/main", "--java_out=/out", "--fatal_warnings", "/src/main/a.proto"]
  {
    ExampleFlags();
    var builder := new ProtocExecutorBuilder("/usr/bin/protoc");
    builder.IncludeDirectories(["/src/main"]);
    builder.OutputDirectory("java", "/out");
    builder.DeterministicOutput(false);
    builder.FatalWarnings(true);
    executor := builder.BuildCompilation(["/src/main/a.proto"]);
  }

  /** The flags of the example invocation, spelled out. */
  lemma ExampleFlags()
    ensures ProtoPathFlags(["/src/main"]) == ["--proto_path=/src/main"]
    ensures OutputFlag("java", "/out") == "--java_out=/out"
    ensures OptionalFlag("--deterministic_output", false) == []
    ensures OptionalFlag("--fatal_warnings", true) == ["--fatal_warnings"]
  {
    assert ProtoPathFlag("/src/main") == "--proto_path=/src/main";
  }
}

=== FILE: file_system.dfy ===
/**
 * A read-only file tree: what the plugin sees of a source directory on disk or of
 * an archive mounted as a virtual file system. A path is the sequence of its name
 * segments; the children of a directory are listed in the order the platform
 * enumerates them, which is the order `Files.walk` visits them.
 */
module FileSystem {
  import opened Wrappers

  type Path = seq<string>

  newtype byte = x: int | 0 <= x < 256

  datatype Node = File(content: seq<byte>) | Dir(children: seq<Child>)

  datatype Child = Child(name: string, node: Node)

  /** One item produced by a walk: the path visited and what it names. */
  datatype Entry = Entry(path: Path, node: Node)

  /** The last segment of a path (`Path.getFileName`); only a file system root has none. */
  function FileName(p: Path): string
  {
    if p == [] then "" else p[|p| - 1]
  }

  /** The path without its last segment (`Path.getParent`). */
  function Parent(p: Path): Path
  {
    if p == [] then [] else p[..|p| - 1]
  }

  /** A real directory never holds two children of the same name. */
  ghost predicate WellFormed(n: Node)
    decreases n
  {
    match n
    case File(_) => true
    case Dir(cs) =>
      && (forall i, j :: 0 <= i < j < |cs| ==> cs[i].name != cs[j].name)
      && (forall i :: 0 <= i < |cs| ==> WellFormed(cs[i].node))
  }

  /** The first child called `name`, if any. */
  function FindChild(cs: seq<Child>, name: string): (r: Option<Node>)
    ensures r.None? <==> forall i :: 0 <= i < |cs| ==> cs[i].name != name
    ensures r.Some? ==> exists i :: 0 <= i < |cs| && cs[i].name == name && cs[i].node == r.value
  {
    if cs == [] then None
    else if cs[0].name == name then Some(cs[0].node)
    else FindChild(cs[1..], name)
  }

  /** What the path `rel`, taken relative to `n`, names (`Files.exists` holds iff this is `Some`). */
  function Find(n: Node, rel: Path): Option<Node>
    decreases rel
  {
    if rel == [] then Some(n)
    else match n
      case File(_) => None
      case Dir(cs) =>
        match FindChild(cs, rel[0])
        case None => None
        case Some(child) => Find(child, rel[1..])
  }

  /**
   * `Files.walk(at)` where `at` names `n`: the node itself first, then each child's
   * walk in listing order (depth-first pre-order).
   */
  function Walk(n: Node, at: Path): (entries: seq<Entry>)
    ensures |entries| >= 1 && entries[0] == Entry(at, n)
    decreases n, 1
  {
    [Entry(at, n)] + match n
      case File(_) => []
      case Dir(cs) => WalkChildren(n, cs, at)
  }

  /** The walks of the children `cs` of the directory `n`, one after another. */
  function WalkChildren(n: Node, cs: seq<Child>, at: Path): seq<Entry>
    requires n.Dir? && forall i :: 0 <= i < |cs| ==> cs[i] in n.children
    decreases n, 0, |cs|
  {
    if cs == [] then []
    else Walk(cs[0].node, at + [cs[0].name]) + WalkChildren(n, cs[1..], at)
  }

  /** Resolving a path in two steps is resolving it at once. */
  lemma {:induction false} FindAppend(n: Node, a: Path, b: Path)
    ensures Find(n, a + b) == match Find(n, a) case None => None case Some(m) => Find(m, b)
    decreases a
  {
    if a == [] {
      assert a + b == b;
    } else {
      assert (a + b)[0] == a[0] && (a + b)[1..] == a[1..] + b;
      match n
      case File(_) =>
      case Dir(cs) =>
        match FindChild(cs, a[0])
        case None =>
        case Some(child) => FindAppend(child, a[1..], b);
    }
  }

  /** In a directory with distinct names, a child is found by its own name. */
  lemma FindChildOfMember(cs: seq<Child>, k: nat)
    requires k < |cs|
    requires forall i, j :: 0 <= i < j < |cs| ==> cs[i].name != cs[j].name
    ensures FindChild(cs, cs[k].name) == Some(cs[k].node)
  {
  }

  /**
   * Every entry of a walk lies under the walk's starting path and names, relative
   * to it, exactly the node the walk reported.
   */
  lemma {:induction false} WalkSound(n: Node, at: Path, e: Entry)
    requires WellFormed(n)
    requires e in Walk(n, at)
    ensures |at| <= |e.path| && e.path[..|at|] == at
    ensures Find(n, e.path[|at|..]) == Some(e.node)
    decreases n, 1
  {
    if e != Entry(at, n) {
      WalkChildrenSound(n, n.children, at, e);
    }
  }

  lemma {:induction false} WalkChildrenSound(n: Node, cs: seq<Child>, at: Path, e: Entry)
    requires n.Dir? && WellFormed(n)
    requires forall i :: 0 <= i < |cs| ==> cs[i] in n.children
    requires e in WalkChildren(n, cs, at)
    ensures |at| < |e.path| && e.path[..|at|] == at
    ensures Find(n, e.path[|at|..]) == Some(e.node)
    decreases n, 0, |cs|
  {
    var c := cs[0];
    var below := at + [c.name];
    if e in Walk(c.node, below) {
      var k :| 0 <= k < |n.children| && n.children[k] == c;
      WalkSound(c.node, below, e);
      var rel := e.path[|at|..];
      assert rel[0] == c.name && rel[1..] == e.path[|below|..] by {
        assert e.path[..|below|] == below;
      }
      FindChildOfMember(n.children, k);
    } else {
      WalkChildrenSound(n, cs[1..], at, e);
    }
  }

  /** The walk of a directory's children passes through the walk of each one. */
  lemma {:induction false} WalkChildrenCovers(n: Node, cs: seq<Child>, at: Path, k: nat, e: Entry)
    requires n.Dir? && forall i :: 0 <= i < |cs| ==> cs[i] in n.children
    requires k < |cs| && e in Walk(cs[k].node, at + [cs[k].name])
    ensures e in WalkChildren(n, cs, at)
    decreases k
  {
    if k > 0 {
      WalkChildrenCovers(n, cs[1..], at, k - 1, e);
    }
  }

  /** Everything a path names below the starting point is visited by the walk. */
  lemma {:induction false} WalkComplete(n: Node, at: Path, rel: Path, m: Node)
    requires Find(n, rel) == Some(m)
    ensures Entry(at + rel, m) in Walk(n, at)
    decreases rel
  {
    if rel == [] {
      assert at + rel == at;
    } else {
      var cs := n.children;
      var child := FindChild(cs, rel[0]).value;
      var k :| 0 <= k < |cs| && cs[k].name == rel[0] && cs[k].node == child;
      WalkComplete(child, at + [rel[0]], rel[1..], m);
      assert at + [rel[0]] + rel[1..] == at + rel;
      WalkChildrenCovers(n, cs, at, k, Entry(at + rel, m));
    }
  }

  /** Whatever a path names inside a well-formed tree is well-formed. */
  lemma {:induction false} WellFormedFind(n: Node, rel: Path)
    requires WellFormed(n) && Find(n, rel).Some?
    ensures WellFormed(Find(n, rel).value)
    decreases rel
  {
    if rel != [] {
      var child := FindChild(n.children, rel[0]).value;
      WellFormedFind(child, rel[1..]);
    }
  }

  /** The entries `keep` accepts, in their original order (`Stream.filter`). */
  function KeepMatching(entries: seq<Entry>, keep: Entry -> bool): (kept: seq<Entry>)
    ensures |kept| <= |entries|
    ensures forall e :: e in kept <==> e in entries && keep(e)
  {
    if entries == [] then []
    else
      var init, last := entries[..|entries| - 1], entries[|entries| - 1];
      assert entries == init + [last];
      KeepMatching(init, keep) + if keep(last) then [last] else []
  }

  /** The filter keeps order: filtering a concatenation concatenates the filtered parts. */
  lemma {:induction false} KeepMatchingAppend(a: seq<Entry>, b: seq<Entry>, keep: Entry -> bool)
    ensures KeepMatching(a + b, keep) == KeepMatching(a, keep) + KeepMatching(b, keep)
    decreases |b|
  {
    if b == [] {
      assert a + b == a;
    } else {
      var ab, init, last := a + b, b[..|b| - 1], b[|b| - 1];
      assert ab[..|ab| - 1] == a + init && ab[|ab| - 1] == last;
      KeepMatchingAppend(a, init, keep);
      var tail := if keep(last) then [last] else [];
      assert KeepMatching(ab, keep) == KeepMatching(a + init, keep) + tail;
      assert KeepMatching(b, keep) == KeepMatching(init, keep) + tail;
    }
  }

  /** A single entry is kept exactly when it is accepted. */
  lemma KeepMatchingOne(e: Entry, keep: Entry -> bool)
    ensures KeepMatching([e], keep) == if keep(e) then [e] else []
  {
    assert [e][..0] == [];
  }

  /** The paths of a sequence of entries, in order. */
  function Paths(entries: seq<Entry>): seq<Path>
  {
    seq(|entries|, i requires 0 <= i < |entries| => entries[i].path)
  }

  lemma PathsAppend(a: seq<Entry>, b: seq<Entry>)
    ensures Paths(a + b) == Paths(a) + Paths(b)
  {
  }

  /** No two entries name the same path. */
  ghost predicate DistinctPaths(entries: seq<Entry>)
  {
    forall i, j :: 0 <= i < j < |entries| ==> entries[i].path != entries[j].path
  }

  lemma DistinctPathsAppend(a: seq<Entry>, b: seq<Entry>)
    requires DistinctPaths(a) && DistinctPaths(b)
    requires forall x, y :: x in a && y in b ==> x.path != y.path
    ensures DistinctPaths(a + b)
  {
    var ab := a + b;
    forall i, j | 0 <= i < j < |ab|
      ensures ab[i].path != ab[j].path
    {
      if j < |a| {
        assert ab[i] == a[i] && ab[j] == a[j];
      } else if i >= |a| {
        assert ab[i] == b[i - |a|] && ab[j] == b[j - |a|];
      } else {
        assert ab[i] in a && ab[j] in b;
      }
    }
  }

  /** Filtering keeps paths distinct. */
  lemma {:induction false} KeepMatchingDistinct(entries: seq<Entry>, keep: Entry -> bool)
    requires DistinctPaths(entries)
    ensures DistinctPaths(KeepMatching(entries, keep))
    decreases |entries|
  {
    if entries != [] {
      var init, last := entries[..|entries| - 1], entries[|entries| - 1];
      assert DistinctPaths(init) by {
        forall i, j | 0 <= i < j < |init|
          ensures init[i].path != init[j].path
        {
          assert init[i] == entries[i] && init[j] == entries[j];
        }
      }
      KeepMatchingDistinct(init, keep);
      var tail := if keep(last) then [last] else [];
      forall x, y | x in KeepMatching(init, keep) && y in tail
        ensures x.path != y.path
      {
        var i :| 0 <= i < |init| && init[i] == x;
        assert entries[i] == x && entries[|entries| - 1] == y;
      }
      DistinctPathsAppend(KeepMatching(init, keep), tail);
    }
  }

  /** Below its starting path, the walk of a directory's children passes only through their names. */
  lemma {:induction false} WalkChildrenNames(n: Node, cs: seq<Child>, at: Path, e: Entry)
    requires n.Dir? && WellFormed(n)
    requires forall i :: 0 <= i < |cs| ==> cs[i] in n.children
    requires e in WalkChildren(n, cs, at)
    ensures |at| < |e.path| && exists k :: 0 <= k < |cs| && e.path[|at|] == cs[k].name
    decreases |cs|
  {
    var below := at + [cs[0].name];
    if e in Walk(cs[0].node, below) {
      var k :| 0 <= k < |n.children| && n.children[k] == cs[0];
      WalkSound(cs[0].node, below, e);
      assert e.path[|at|] == e.path[..|below|][|at|];
    } else {
      WalkChildrenNames(n, cs[1..], at, e);
      var k :| 0 <= k < |cs[1..]| && e.path[|at|] == cs[1..][k].name;
      assert cs[1..][k] == cs[k + 1];
    }
  }

  /** A walk of a well-formed tree visits every path once (`Files.walk` reports no path twice). */
  lemma {:induction false} WalkPathsDistinct(n: Node, at: Path)
    requires WellFormed(n)
    ensures DistinctPaths(Walk(n, at))
    decreases n, 1
  {
    match n
    case File(_) =>
    case Dir(cs) =>
      WalkChildrenDistinct(n, cs, at);
      forall x, y | x in [Entry(at, n)] && y in WalkChildren(n, cs, at)
        ensures x.path != y.path
      {
        WalkChildrenNames(n, cs, at, y);
      }
      DistinctPathsAppend([Entry(at, n)], WalkChildren(n, cs, at));
  }

  lemma {:induction false} WalkChildrenDistinct(n: Node, cs: seq<Child>, at: Path)
    requires n.Dir? && WellFormed(n)
    requires forall i :: 0 <= i < |cs| ==> cs[i] in n.children
    requires forall i, j :: 0 <= i < j < |cs| ==> cs[i].name != cs[j].name
    ensures DistinctPaths(WalkChildren(n, cs, at))
    decreases n, 0, |cs|
  {
    if cs != [] {
      var c, below := cs[0], at + [cs[0].name];
      var k :| 0 <= k < |n.children| && n.children[k] == c;
      WalkPathsDistinct(c.node, below);
      WalkChildrenDistinct(n, cs[1..], at);
      forall x, y | x in Walk(c.node, below) && y in WalkChildren(n, cs[1..], at)
        ensures x.path != y.path
      {
        WalkSound(c.node, below, x);
        assert x.path[|at|] == x.path[..|below|][|at|];
        WalkChildrenNames(n, cs[1..], at, y);
        var m :| 0 <= m < |cs[1..]| && y.path[|at|] == cs[1..][m].name;
        assert cs[1..][m] == cs[m + 1];
      }
      DistinctPathsAppend(Walk(c.node, below), WalkChildren(n, cs[1..], at));
    }
  }
}

=== FILE: source_resolver.dfy ===
/**
 * `ProtoSourceResolver`: discovers `*.proto` sources by walking each source
 * directory in turn. Source directories live in one file tree `fs` whose root is
 * the path `[]`.
 */
module ResolveSource {
  import opened Wrappers
  import opened FileSystem

  /** `String.lastIndexOf(char)`: the last position of `c` in `s`, or -1. */
  function LastIndexOf(s: string, c: char): (index: int)
    ensures -1 <= index < |s|
    ensures index == -1 <==> c !in s
    ensures 0 <= index ==> s[index] == c && c !in s[index + 1..]
  {
    if s == [] then -1
    else if s[|s| - 1] == c then |s| - 1
    else
      assert s == s[..|s| - 1] + [s[|s| - 1]];
      LastIndexOf(s[..|s| - 1], c)
  }

  /**
   * `protoFileMatcher`: a name without a period is rejected; otherwise the text
   * from the last period to the end must be exactly ".proto".
   */
  predicate IsProtoFileName(fileName: string)
  {
    var periodIndex := LastIndexOf(fileName, '.');
    if periodIndex == -1 then false
    else fileName[periodIndex..] == ".proto"
  }

  /** The matcher accepts exactly the names that end with ".proto", case-sensitively. */
  lemma ProtoFileNameIffSuffix(fileName: string)
    ensures IsProtoFileName(fileName) <==> |fileName| >= 6 && fileName[|fileName| - 6..] == ".proto"
  {
    var n := |fileName|;
    var periodIndex := LastIndexOf(fileName, '.');
    if n >= 6 && fileName[n - 6..] == ".proto" {
      assert fileName[n - 6] == '.';
      assert periodIndex == n - 6;
    }
  }

  /** Names the matcher accepts, including a bare ".proto". */
  lemma ProtoFileNameAccepts()
    ensures IsProtoFileName("foo.proto") && IsProtoFileName(".proto") && IsProtoFileName("a.b.proto")
  {
    ProtoFileNameIffSuffix("foo.proto");
    ProtoFileNameIffSuffix(".proto");
    ProtoFileNameIffSuffix("a.b.proto");
  }

  /** Names the matcher rejects: another case, a later extension, no period, a longer extension. */
  lemma ProtoFileNameRejects()
    ensures !IsProtoFileName("Foo.PROTO") && !IsProtoFileName("a.proto.bak")
    ensures !IsProtoFileName("proto") && !IsProtoFileName("foo.protobuf")
  {
    ProtoFileNameIffSuffix("Foo.PROTO");
    ProtoFileNameIffSuffix("a.proto.bak");
    ProtoFileNameIffSuffix("foo.protobuf");
  }

  /** The two filters of the walk: a regular file, and a name the matcher accepts. */
  predicate IsProtoSource(e: Entry)
  {
    e.node.File? && IsProtoFileName(FileName(e.path))
  }

  /** The paths of the walk entries that pass both filters, in walk order. */
  function ProtoSourcesIn(entries: seq<Entry>): (sources: seq<Path>)
    ensures |sources| <= |entries|
  {
    Paths(KeepMatching(entries, IsProtoSource))
  }

  /** The filter keeps exactly the paths of the entries that pass it. */
  lemma ProtoSourcesInMembers(entries: seq<Entry>, p: Path)
    ensures p in ProtoSourcesIn(entries) <==> exists e :: e in entries && IsProtoSource(e) && e.path == p
  {
    var kept := KeepMatching(entries, IsProtoSource);
    if p in ProtoSourcesIn(entries) {
      var i :| 0 <= i < |kept| && Paths(kept)[i] == p;
      assert kept[i] in kept;
    }
    if e :| e in entries && IsProtoSource(e) && e.path == p {
      var i :| 0 <= i < |kept| && kept[i] == e;
      assert Paths(kept)[i] == p;
    }
  }

  /** The filter keeps walk order: the matches of a concatenation are the concatenated matches. */
  lemma ProtoSourcesInAppend(a: seq<Entry>, b: seq<Entry>)
    ensures ProtoSourcesIn(a + b) == ProtoSourcesIn(a) + ProtoSourcesIn(b)
  {
    KeepMatchingAppend(a, b, IsProtoSource);
    PathsAppend(KeepMatching(a, IsProtoSource), KeepMatching(b, IsProtoSource));
  }

  /** One walk entry contributes its path exactly when it passes both filters. */
  lemma ProtoSourcesInOne(e: Entry)
    ensures ProtoSourcesIn([e]) == if IsProtoSource(e) then [e.path] else []
  {
    KeepMatchingOne(e, IsProtoSource);
  }

  /** The matches of a walk that reports no path twice hold no path twice. */
  lemma ProtoSourcesInDistinct(entries: seq<Entry>)
    requires DistinctPaths(entries)
    ensures forall i, j :: 0 <= i < j < |ProtoSourcesIn(entries)| ==> ProtoSourcesIn(entries)[i] != ProtoSourcesIn(entries)[j]
  {
    KeepMatchingDistinct(entries, IsProtoSource);
  }

  /** What one source directory contributes: nothing when it does not exist. */
  function SourcesUnder(fs: Node, sourceDir: Path): (sources: seq<Path>)
    ensures Find(fs, sourceDir).None? ==> sources == []
  {
    match Find(fs, sourceDir)
    case None => []
    case Some(n) => ProtoSourcesIn(Walk(n, sourceDir))
  }

  /** The contributions of the source directories, concatenated in the given order. */
  function ResolvedSources(fs: Node, sourceDirs: seq<Path>): seq<Path>
  {
    Concat(Contributions(fs, sourceDirs))
  }

  /** What each source directory contributes, one list per directory. */
  function Contributions(fs: Node, sourceDirs: seq<Path>): seq<seq<Path>>
  {
    seq(|sourceDirs|, i requires 0 <= i < |sourceDirs| => SourcesUnder(fs, sourceDirs[i]))
  }

  /** The concatenation of a list of lists, in order. */
  function Concat<T>(xss: seq<seq<T>>): seq<T>
  {
    if xss == [] then [] else Concat(xss[..|xss| - 1]) + xss[|xss| - 1]
  }

  lemma {:induction false} ConcatAppend<T>(a: seq<seq<T>>, b: seq<seq<T>>)
    ensures Concat(a + b) == Concat(a) + Concat(b)
    decreases |b|
  {
    if b == [] {
      assert a + b == a;
    } else {
      var ab := a + b;
      assert ab[..|ab| - 1] == a + b[..|b| - 1];
      ConcatAppend(a, b[..|b| - 1]);
    }
  }

  lemma {:induction false} ConcatMembers<T>(xss: seq<seq<T>>, x: T)
    ensures x in Concat(xss) <==> exists i :: 0 <= i < |xss| && x in xss[i]
    decreases |xss|
  {
    if xss != [] {
      var init := xss[..|xss| - 1];
      ConcatMembers(init, x);
      if x in Concat(xss) && x !in xss[|xss| - 1] {
        var i :| 0 <= i < |init| && x in init[i];
        assert xss[i] == init[i];
      }
    }
  }

  /** `resolve`: one pass over the source directories, appending each walk's matches. */
  method Resolve(fs: Node, sourceDirs: seq<Path>) returns (protoSources: seq<Path>)
    ensures protoSources == ResolvedSources(fs, sourceDirs)
  {
    protoSources := [];
    for i := 0 to |sourceDirs|
      invariant protoSources == ResolvedSources(fs, sourceDirs[..i])
    {
      var sourceDir := sourceDirs[i];
      ResolvedSourcesStep(fs, sourceDirs, i);
      var found := Find(fs, sourceDir);
      if found.None? {
        continue;
      }
      protoSources := AddProtoSources(protoSources, Walk(found.value, sourceDir));
    }
    assert sourceDirs[..|sourceDirs|] == sourceDirs;
  }

  /** The stream of one walk, filtered and appended entry by entry to the accumulated list. */
  method AddProtoSources(protoSources: seq<Path>, walk: seq<Entry>) returns (extended: seq<Path>)
    ensures extended == protoSources + ProtoSourcesIn(walk)
  {
    extended := protoSources;
    for j := 0 to |walk|
      invariant extended == protoSources + ProtoSourcesIn(walk[..j])
    {
      assert walk[..j + 1] == walk[..j] + [walk[j]];
      ProtoSourcesInAppend(walk[..j], [walk[j]]);
      ProtoSourcesInOne(walk[j]);
      if IsProtoSource(walk[j]) {
        extended := extended + [walk[j].path];
      }
    }
    assert walk[..|walk|] == walk;
  }

  /** Resolving two lists of directories one after the other is resolving their concatenation. */
  lemma ResolvedSourcesAppend(fs: Node, a: seq<Path>, b: seq<Path>)
    ensures ResolvedSources(fs, a + b) == ResolvedSources(fs, a) + ResolvedSources(fs, b)
  {
    var ca, cb, cab := Contributions(fs, a), Contributions(fs, b), Contributions(fs, a + b);
    forall i | 0 <= i < |cab|
      ensures cab[i] == (ca + cb)[i]
    {
      if i < |a| {
        assert (a + b)[i] == a[i];
      } else {
        assert (a + b)[i] == b[i - |a|];
      }
    }
    assert cab == ca + cb;
    ConcatAppend(Contributions(fs, a), Contributions(fs, b));
  }

  /** Resolving one more directory appends what that directory contributes. */
  lemma ResolvedSourcesStep(fs: Node, sourceDirs: seq<Path>, i: nat)
    requires i < |sourceDirs|
    ensures ResolvedSources(fs, sourceDirs[..i + 1]) == ResolvedSources(fs, sourceDirs[..i]) + SourcesUnder(fs, sourceDirs[i])
  {
    ResolvedSourcesAppend(fs, sourceDirs[..i], [sourceDirs[i]]);
    ResolvedSourcesOne(fs, sourceDirs[i]);
    assert sourceDirs[..i + 1] == sourceDirs[..i] + [sourceDirs[i]];
  }

  /** One source directory resolves to what it contributes. */
  lemma ResolvedSourcesOne(fs: Node, sourceDir: Path)
    ensures ResolvedSources(fs, [sourceDir]) == SourcesUnder(fs, sourceDir)
  {
    var contributions := Contributions(fs, [sourceDir]);
    assert |contributions| == 1 && contributions[0] == SourcesUnder(fs, sourceDir);
    assert contributions[..0] == [];
    assert Concat(contributions) == Concat(contributions[..0]) + contributions[0];
  }

  /** A source directory that does not exist changes nothing, wherever it stands in the list. */
  lemma MissingSourceDirIsNoOp(fs: Node, before: seq<Path>, missing: Path, after: seq<Path>)
    requires Find(fs, missing) == None
    ensures ResolvedSources(fs, before + [missing] + after) == ResolvedSources(fs, before + after)
  {
    ResolvedSourcesAppend(fs, before + [missing], after);
    ResolvedSourcesAppend(fs, before, [missing]);
    ResolvedSourcesAppend(fs, before, after);
    ResolvedSourcesOne(fs, missing);
  }

  /** A directory given twice is walked twice: results are not deduplicated. */
  lemma RepeatedSourceDirRepeatsSources(fs: Node, sourceDirs: seq<Path>)
    ensures ResolvedSources(fs, sourceDirs + sourceDirs) == ResolvedSources(fs, sourceDirs) + ResolvedSources(fs, sourceDirs)
  {
    ResolvedSourcesAppend(fs, sourceDirs, sourceDirs);
  }

  /** A path is resolved exactly when one of the source directories contributes it. */
  lemma ResolvedSourcesMembers(fs: Node, sourceDirs: seq<Path>, p: Path)
    ensures p in ResolvedSources(fs, sourceDirs) <==>
            exists i :: 0 <= i < |sourceDirs| && p in SourcesUnder(fs, sourceDirs[i])
  {
    var contributions := Contributions(fs, sourceDirs);
    ConcatMembers(contributions, p);
    if p in ResolvedSources(fs, sourceDirs) {
      var i :| 0 <= i < |contributions| && p in contributions[i];
      assert contributions[i] == SourcesUnder(fs, sourceDirs[i]);
    }
    if i :| 0 <= i < |sourceDirs| && p in SourcesUnder(fs, sourceDirs[i]) {
      assert contributions[i] == SourcesUnder(fs, sourceDirs[i]);
    }
  }

  /**
   * Every resolved path is a regular file named "*.proto" that lies under one of the
   * given source directories.
   */
  lemma ResolvedSourcesSound(fs: Node, sourceDirs: seq<Path>, p: Path)
    requires WellFormed(fs)
    requires p in ResolvedSources(fs, sourceDirs)
    ensures Find(fs, p).Some? && Find(fs, p).value.File?
    ensures IsProtoFileName(FileName(p))
    ensures exists d :: d in sourceDirs && |d| <= |p| && p[..|d|] == d
  {
    ResolvedSourcesMembers(fs, sourceDirs, p);
    var k :| 0 <= k < |sourceDirs| && p in SourcesUnder(fs, sourceDirs[k]);
    SourcesUnderSound(fs, sourceDirs[k], p);
  }

  /** What one source directory contributes are regular "*.proto" files below it. */
  lemma SourcesUnderSound(fs: Node, sourceDir: Path, p: Path)
    requires WellFormed(fs)
    requires p in SourcesUnder(fs, sourceDir)
    ensures Find(fs, p).Some? && Find(fs, p).value.File?
    ensures IsProtoFileName(FileName(p))
    ensures |sourceDir| <= |p| && p[..|sourceDir|] == sourceDir
  {
    var n := Find(fs, sourceDir).value;
    ProtoSourcesInMembers(Walk(n, sourceDir), p);
    var e :| e in Walk(n, sourceDir) && IsProtoSource(e) && e.path == p;
    WellFormedFind(fs, sourceDir);
    WalkSound(n, sourceDir, e);
    FindAppend(fs, sourceDir, p[|sourceDir|..]);
    assert sourceDir + p[|sourceDir|..] == p;
  }

  /** Every regular file named "*.proto" under a given source directory is resolved. */
  lemma ResolvedSourcesComplete(fs: Node, sourceDirs: seq<Path>, d: Path, p: Path)
    requires d in sourceDirs && |d| <= |p| && p[..|d|] == d
    requires Find(fs, p).Some? && Find(fs, p).value.File?
    requires IsProtoFileName(FileName(p))
    ensures p in ResolvedSources(fs, sourceDirs)
  {
    var rel := p[|d|..];
    assert d + rel == p;
    FindAppend(fs, d, rel);
    var n := Find(fs, d).value;
    WalkComplete(n, d, rel, Find(fs, p).value);
    assert IsProtoSource(Entry(p, Find(fs, p).value));
    ProtoSourcesInMembers(Walk(n, d), p);
    var k :| 0 <= k < |sourceDirs| && sourceDirs[k] == d;
    ResolvedSourcesMembers(fs, sourceDirs, p);
  }

  /** A path listed without repetition occurs in the list exactly once. */
  lemma {:induction false} OccursOnce(s: seq<Path>, p: Path)
    requires forall i, j :: 0 <= i < j < |s| ==> s[i] != s[j]
    requires p in s
    ensures multiset(s)[p] == 1
    decreases |s|
  {
    var init, last := s[..|s| - 1], s[|s| - 1];
    assert s == init + [last];
    if p == last {
      assert p !in init by {
        forall k | 0 <= k < |init|
          ensures init[k] != p
        {
          assert init[k] == s[k];
        }
      }
    } else {
      OccursOnce(init, p);
    }
  }

  /**
   * In a well-formed tree, one source directory contributes each regular "*.proto"
   * file below it exactly once: the walk reports no path twice.
   */
  lemma SourcesUnderOnce(fs: Node, sourceDir: Path, p: Path)
    requires WellFormed(fs)
    requires |sourceDir| <= |p| && p[..|sourceDir|] == sourceDir
    requires Find(fs, p).Some? && Find(fs, p).value.File?
    requires IsProtoFileName(FileName(p))
    ensures multiset(SourcesUnder(fs, sourceDir))[p] == 1
  {
    assert sourceDir + p[|sourceDir|..] == p;
    FindAppend(fs, sourceDir, p[|sourceDir|..]);
    var n := Find(fs, sourceDir).value;
    WellFormedFind(fs, sourceDir);
    WalkPathsDistinct(n, sourceDir);
    ProtoSourcesInDistinct(Walk(n, sourceDir));
    ResolvedSourcesComplete(fs, [sourceDir], sourceDir, p);
    ResolvedSourcesOne(fs, sourceDir);
    OccursOnce(SourcesUnder(fs, sourceDir), p);
  }

  /**
   * Overlapping source directories report the same file once per directory that
   * contains it: twice for two nested directories.
   */
  lemma OverlappingSourceDirsRepeatSource(fs: Node, outer: Path, inner: Path, p: Path)
    requires WellFormed(fs)
    requires |outer| <= |inner| && inner[..|outer|] == outer
    requires |inner| <= |p| && p[..|inner|] == inner
    requires Find(fs, p).Some? && Find(fs, p).value.File?
    requires IsProtoFileName(FileName(p))
    ensures multiset(ResolvedSources(fs, [outer, inner]))[p] == 2
  {
    assert p[..|outer|] == outer;
    ResolvedSourcesAppend(fs, [outer], [inner]);
    assert [outer] + [inner] == [outer, inner];
    ResolvedSourcesOne(fs, outer);
    ResolvedSourcesOne(fs, inner);
    var fromOuter, fromInner := SourcesUnder(fs, outer), SourcesUnder(fs, inner);
    SourcesUnderOnce(fs, outer, p);
    SourcesUnderOnce(fs, inner, p);
    assert multiset(fromOuter + fromInner)[p] == multiset(fromOuter)[p] + multiset(fromInner)[p];
  }
}

=== FILE: wrappers.dfy ===
/** Wrappers: the model's stand-ins for java.util.Optional and thrown exceptions. */
module Wrappers {

  datatype Option<+T> = None | Some(value: T)

  datatype Result<+T, +E> = Success(value: T) | Failure(error: E)
}
